=== FILE: README.md ===
# telegrapy in Dafny

A model of the pure core of `telegrapy`, a small Python client library for
the Telegram bot API, with proofs about it. Three parts of the library are
modelled:

- **Domain objects and command derivation** (`telegrapy/telegram.py`). These are
  users, the three chat kinds and messages. A message's constructor scans its entity list for the first
  entity that carries the value `bot_command`. For such a message it cuts the
  command word out of the text with Python slicing, deletes the bot's name
  from it with `str.replace`, and replaces the text by the stripped
  remainder. All objects compare equal when they have the same class and the
  same id, and hash by id alone.
- **The parser** (`telegrapy/telegram_parser.py`). It turns decoded JSON records into
  those objects. `parse_chat` classifies on the `type` field and raises
  `ParseException` carrying the raw record for any other value.
- **Dispatch** (`telegrapy/bot.py`). `Handler` keeps two last-write-wins maps,
  one from command words to handlers and one from exact texts to handlers.
  Its consumer loop takes the head of the shared FIFO queue, parses it and
  resolves a handler. The `Updater` producer loop turns a batch of updates
  into queued message payloads and a new offset.

Files:

| file | module | contents |
|---|---|---|
| `wrappers.dfy` | `Wrappers` | `Option`, `Result` |
| `seqs.dfy` | `Seqs` | concatenation identities used by the queue proofs |
| `json.dfy` | `Json` | decoded JSON values; optional string fields |
| `pystr.dfy` | `PyStr` | Python `s[a:b]`, `s[a:]`, `s.replace(p, '')`, `s.strip()` |
| `telegram.dfy` | `Telegram` | users, chats, messages, command derivation, equality and hash |
| `telegram_error.dfy` | `TelegramError` | `InvalidTokenException`, `ParseException` |
| `telegram_parser.dfy` | `TelegramParser` | `parse_user`, `parse_chat`, `parse_message` |
| `bot.dfy` | `Bot` | the handler registry, the consumer step, the updater step |

Modelling choices:

- Handlers are arbitrary Python callables. Here each one is an opaque
  `HandlerId`, and "invoking" a handler means reporting which id would be
  called.
- The shared `queue.Queue` is a sequence. Its head is the next item that
  `get` returns, and `put` appends at the end.
- `null` in JSON is Python's `None`. So an optional key read as
  `raw[k] if k in raw else None` gives `None` when the key is absent and
  also when its value is `null`.
- A missing required key makes `raw[k]` raise `KeyError` before any of the
  library's own logic runs, so required keys are preconditions (for example
  `MessageRecordOk`). Values are typed as the constructors declare them
  (`id: int`, `is_bot: bool`, `first_name: str`, `Optional[str]` for the
  optional names and titles), which is what the bot API sends. The parser
  itself does not check these types: it would store a value of any type, so
  `parse_chat({'id': 'x', 'type': 'channel'})` raises `ParseException` in
  Python, yet the model's `ChatRecordOk` excludes that record because its id
  is not an integer. The one error the library raises on purpose,
  `ParseException` for an unknown chat type, is modelled as a `Failure`.
- The unbounded loops become single steps: `DispatchStep` and `PollStep`.
  `Drain` repeats the consumer step until the queue is empty or a parse
  error ends the loop.

### Behaviour worth noting

- **Equality.** `TelegramObject.__eq__` (`telegrapy/telegram.py:11-14`)
  checks `isinstance(other, self.__class__)` before it compares ids. None of
  the concrete classes subclasses another, so `GroupChat(5)` and
  `PrivateChat(5)` are **not** equal. They do still hash alike, because
  `__hash__` (`telegrapy/telegram.py:16-17`) hashes the id alone
  (`GroupAndPrivateWithSameIdDiffer`).
- **Bot-name suffix.** The command word is cut out of the text and then
  `replace(botname, '')` deletes the bare name only
  (`telegrapy/telegram.py:111`). With bot name `mybot`, `/start@mybot`
  gives the command `start@` (`RemoveBotNameFromStart`,
  `CommandMessageAtStart`).
- **Entity length.** The command word runs to `offset + length`. For the
  text `/echo@mybot hello world` with an entity of offset 0 and length 12,
  the entity spans `/echo@mybot ` including the space. With bot name
  `mybot` the command is `echo@ ` with a trailing space, and the text
  becomes `hello world`.

## Model

| member | source | states |
|---|---|---|
| Json.OptStr | telegrapy/telegram_parser.py:18-19 | an optional field reads as `None` exactly when the key is absent or null, and otherwise as the string stored under it |
| PyStr.ClampIndex | telegrapy/telegram.py:111-112 | a normalised slice bound never lies past the end of the string |
| PyStr.Slice | telegrapy/telegram.py:111 | `s[a:b]` never exceeds the string, is the ordinary subsequence for in-range bounds, clamps an end bound past the string to the string's end, and is empty when it starts past the end |
| PyStr.ClampIndexSpec | telegrapy/telegram.py:111-112 | a slice bound inside the string is kept, a negative one counts from the end, and both clamp to `[0, len(s)]` |
| PyStr.SliceIsInfix | telegrapy/telegram.py:111 | whatever the bounds, a slice is a contiguous piece of the string, and it is empty when the bounds cross |
| PyStr.SliceFrom | telegrapy/telegram.py:112 | `s[a:]` is the suffix from the clamped start, and is empty from the end onward |
| PyStr.RemoveAll | telegrapy/telegram.py:111 | `replace(p, '')` never lengthens the string, and an empty pattern leaves it unchanged |
| PyStr.RemoveAllAbsent | telegrapy/telegram.py:111 | a name that does not occur in the command word is not removed |
| PyStr.RemoveAllPresentShrinks | telegrapy/telegram.py:111 | a non-empty name that occurs is removed, so the word gets strictly shorter |
| PyStr.RemoveAllIdentityIff | telegrapy/telegram.py:111 | for a non-empty name, the word changes if and only if the name occurs in it |
| PyStr.RemoveAllAtFirst | telegrapy/telegram.py:111 | when the first occurrence of a non-empty name starts after a prefix, `replace` keeps the prefix, deletes that occurrence and continues on what follows it; with `RemoveAllAbsent` this fixes the result for every input |
| PyStr.RemoveBotNameTwice | telegrapy/telegram.py:111 | every occurrence goes, not only the first: `'a@mybot b@mybot'.replace('mybot', '')` is `'a@ b@'` |
| PyStr.RemoveAllSinglePass | telegrapy/telegram.py:111 | `replace` makes one left-to-right pass: `'mymybotbot'.replace('mybot', '')` is `'mybot'`, since the occurrence formed by the deletion stays |
| PyStr.RemoveAllKeepsPrefix | telegrapy/telegram.py:111 | characters that cannot start the name pass through, so `replace` deletes the bare name and nothing in front of it |
| PyStr.RemoveBotNameFromStart | telegrapy/telegram.py:111 | with bot name `mybot`, `start@mybot` becomes `start@` |
| PyStr.RemoveBotNameKeepsAt | telegrapy/telegram.py:111 | with bot name `mybot`, `echo@mybot` becomes `echo@` (the `@` stays) and `mybot` becomes empty |
| PyStr.TrimStart | telegrapy/telegram.py:112 | dropping leading whitespace gives a suffix, drops only whitespace, and leaves no leading whitespace |
| PyStr.TrimEnd | telegrapy/telegram.py:112 | dropping trailing whitespace gives a prefix, drops only whitespace, and leaves no trailing whitespace |
| PyStr.IsSpace | telegrapy/telegram.py:112 | the whitespace set of `str.isspace`: space, tab, newline and carriage return are in it; digits, ASCII letters, `_` and `@` are not |
| PyStr.Strip | telegrapy/telegram.py:112 | `strip()` never lengthens the text and leaves no whitespace at either end |
| PyStr.StripSpec | telegrapy/telegram.py:112 | `strip()` removes exactly the whitespace run at each end and keeps the middle intact |
| PyStr.StripTrimmed | telegrapy/telegram.py:112 | text with no whitespace at either end is its own strip |
| PyStr.StripLeadingSpace | telegrapy/telegram.py:112 | leading whitespace never reaches the new text |
| PyStr.StrippedUnique | telegrapy/telegram.py:112 | the description of a strip admits a single result |
| PyStr.StripIdempotent | telegrapy/telegram.py:112 | stripping the remainder twice is the same as stripping it once |
| Telegram.Chat.Type | telegrapy/telegram.py:47-77 | each chat variant fixes its tag, and the tag tells the variants apart: `private`, `group`, `supergroup` |
| Telegram.FirstCommand | telegrapy/telegram.py:100-103 | the entity the filter yields is in range and carries `bot_command` |
| Telegram.FirstCommandIsFirst | telegrapy/telegram.py:103 | no entity before the chosen one carries `bot_command`, and none is chosen only when no entity carries it |
| Telegram.CommandEntity | telegrapy/telegram.py:100-103 | an entity is used exactly when the list is present and contains a command entity, and it is the first such entity |
| Telegram.CommandWord | telegrapy/telegram.py:109-111 | the command word is never longer than the text |
| Telegram.CommandRest | telegrapy/telegram.py:112 | the new text is never longer than the old text |
| Telegram.NewMessage | telegrapy/telegram.py:84-113 | the fields are stored unchanged. A message is a command exactly when a command entity is found. Otherwise the command is `""` and the text is untouched. Otherwise the command is the slice after the slash with each non-overlapping occurrence of the bot name, scanned left to right, deleted, and the text is the stripped remainder |
| Telegram.IsCommandIff | telegrapy/telegram.py:100-113 | `is_command` holds if and only if some entity carries `bot_command`, under any key |
| Telegram.NoCommandKeepsText | telegrapy/telegram.py:100-106 | with no entities, or no command entity among them, `is_command` is false, `command` is `""` and the text is the input text |
| Telegram.FirstCommandWins | telegrapy/telegram.py:103 | entities after the first command entity do not change which one is chosen |
| Telegram.LaterCommandEntitiesIgnored | telegrapy/telegram.py:103-113 | a message with extra trailing entities, commands or not, derives the same command and text |
| Telegram.DefaultBotnameKeepsSlice | telegrapy/telegram.py:92-111 | with the default bot name `''`, the command is exactly the slice `text[o+1:o+l]` |
| Telegram.CommandInsideText | telegrapy/telegram.py:109-112 | for an entity inside the text, the command is `text[o+1:o+l]` with the bot name deleted, and the new text is `text[o+l:]` stripped |
| Telegram.CommandSplitsText | telegrapy/telegram.py:109-112 | for an entity inside the text with the default bot name, the text is the part up to the slash, then the command word, then the part whose strip is the new text: nothing is lost |
| Telegram.CommandPastEnd | telegrapy/telegram.py:111-112 | an entity that starts inside the text but runs past its end clamps: the command is everything after the slash with the bot name deleted, and the text is empty |
| Telegram.ShortTextLongEntity | telegrapy/telegram.py:111-112 | `/echo` with an entity of offset 0 and length 10 gives the command `echo` and an empty text |
| Telegram.CommandBeyondText | telegrapy/telegram.py:111-112 | an entity starting past the end of the text clamps to an empty command and an empty text instead of raising |
| Telegram.CommandAtStart | telegrapy/telegram.py:109-112 | for a text `/` + word + rest with the entity covering the slash and the word, the command is the word without the bot name and the new text is the rest stripped |
| Telegram.CommandMessageAtStart | telegrapy/telegram.py:100-113 | the same through the constructor, for a message whose single entity is a command entity at offset 0 |
| Telegram.IntHash | telegrapy/telegram.py:16-17 | `hash` of an int lies strictly within ±(2^61 − 1), is never −1, is the identity on small non-negative ids, and keeps the sign of non-negative ids |
| Telegram.IsCommandEntity | telegrapy/telegram.py:103 | an entity is a command entity exactly when `bot_command` is one of its values, whatever the key; in particular when its `type` is `bot_command` |
| Telegram.ObjectsEqual | telegrapy/telegram.py:11-14 | identical objects are equal, and equal objects have the same id, both are users or neither, and both are messages or neither |
| Telegram.ObjectHash | telegrapy/telegram.py:16-17 | `hash(self.id)` is never -1, lies strictly between -(2^61 - 1) and 2^61 - 1, and is the id itself for ids in [0, 2^61 - 1) |
| Telegram.ObjectsEqualIsEquivalence | telegrapy/telegram.py:11-14 | `__eq__` is reflexive, symmetric and transitive |
| Telegram.HashConsistentWithEquality | telegrapy/telegram.py:11-17 | equal objects hash alike, and the hash depends on the id alone |
| Telegram.UsersEqualById | telegrapy/telegram.py:11-14 | two users are equal if and only if their ids agree; names, usernames and the bot flag are ignored |
| Telegram.MessagesEqualById | telegrapy/telegram.py:11-14 | two messages are equal if and only if their message ids agree; chat, sender, text and entities are ignored |
| Telegram.ChatEqualityByKindAndId | telegrapy/telegram.py:11-14 | two chats are equal if and only if they are the same kind with the same id. Titles and names are ignored |
| Telegram.GroupAndPrivateWithSameIdDiffer | telegrapy/telegram.py:11-17 | a group chat and a private chat with the same id are not equal, yet hash alike |
| TelegramParser.ParseUser | telegrapy/telegram_parser.py:14-20 | `id`, `is_bot` and `first_name` are copied. `last_name` and `username` are `None` exactly when absent or null, never an error |
| TelegramParser.ParseChat | telegrapy/telegram_parser.py:23-42 | the parse succeeds if and only if `type` is one of the three known tags. A success has the record's id, the variant whose tag is the record's `type`, and that variant's optional fields. Any other type fails with `ParseException` carrying exactly the raw record |
| TelegramParser.Entities | telegrapy/telegram_parser.py:51 | the entity list is `None` exactly when the key is absent or null, and otherwise holds the record's entity objects in order |
| TelegramParser.ParseMessage | telegrapy/telegram_parser.py:45-53 | the parse fails if and only if the chat's type is unknown, and then with the chat's own parse error. On success, `message_id` and `date` are copied, the chat is the parsed chat, there is a sender if and only if `from` is present, and the message is what the constructor builds from the record's text and entities with the given bot name |
| TelegramParser.ChatRoundTrip | telegrapy/telegram_parser.py:23-39 | every chat written as a platform record parses back to itself |
| TelegramParser.UserRoundTrip | telegrapy/telegram_parser.py:14-20 | every user written as a platform record parses back to itself |
| TelegramParser.ParseMessageChatId | telegrapy/telegram.py:125-127 | a parsed message's `chat_id` is the id in its raw chat record |
| TelegramParser.ParseMessageText | telegrapy/telegram_parser.py:50 | an ordinary message keeps the record's text, `None` exactly when absent or null, and has command `""` |
| Bot.NewRegistry | telegrapy/bot.py:24-28 | a new handler starts with no commands and no texts registered |
| Bot.AddCommand | telegrapy/bot.py:45-46 | after `add_command(c, h)` the command map yields `h` for `c`. Its keys gain only `c`, other commands keep their handlers, and the text map is unchanged |
| Bot.AddCommands | telegrapy/bot.py:48-50 | `add_commands(m)` leaves the command map equal to the old map updated with every entry of `m`, and the text map unchanged |
| Bot.AddMessage | telegrapy/bot.py:55-56 | after `add_message(t, h)` the text map yields `h` for `t`. Its keys gain only `t`, other texts keep their handlers, and the command map is unchanged |
| Bot.AddCommandLastWriteWins | telegrapy/bot.py:45-46 | registering a command twice is the same as registering only the second handler |
| Bot.AddMessageLastWriteWins | telegrapy/bot.py:55-56 | registering a text twice is the same as registering only the second handler |
| Bot.GetItem | telegrapy/bot.py:42-43 | `handler[k]` succeeds if and only if `k` is a registered command, with its handler, and otherwise raises `KeyError(k)` |
| Bot.GetCommandHandler | telegrapy/bot.py:52-53 | a handler is found if and only if the message's command is registered, and it is that command's handler |
| Bot.GetMessageHandler | telegrapy/bot.py:58-59 | a handler is found if and only if the message has a text that is registered exactly, and it is that text's handler |
| Bot.GetItemAgreesWithGet | telegrapy/bot.py:42-53 | indexing and `get_command_handler` agree on registered commands. For a missing command, indexing fails with `KeyError` where the getter gives `None` |
| Bot.Resolve | telegrapy/bot.py:66-69 | a command is looked up in the command map by its command word, and any other message in the text map by its text. A missing key gives no handler |
| Bot.ResolveReadsOneMap | telegrapy/bot.py:66-69 | a command never consults the text map, and an ordinary message never consults the command map |
| Bot.DispatchStep | telegrapy/bot.py:61-73 | an empty queue waits. Otherwise exactly the head is taken and the rest of the queue is the tail in the same order. The step crashes if and only if the head fails to parse, with that parse error. Otherwise the parsed message goes to the handler `Resolve` picks |
| Bot.Drain | telegrapy/bot.py:61-73 | running the consumer until it waits or crashes never produces more invocations than there were payloads; it asks only that the payloads it reaches, up to the first that fails to parse, be well-formed |
| Bot.AllParseDrainOk | telegrapy/bot.py:62-64 | a queue whose payloads are all well-formed and all parse is one the consumer can run to the end |
| Bot.Handle | telegrapy/bot.py:64-69 | a payload that parses is dispatched as its parsed message, to the handler `Resolve` picks |
| Bot.DrainCons | telegrapy/bot.py:62-73 | a parseable payload at the head is handled first, and the consumer then carries on with the rest of the queue |
| Bot.DrainHandlesAllInOrder | telegrapy/bot.py:62-73 | when every payload parses, each is handled exactly once, in queue order, by the handler `Resolve` picks, and the loop ends waiting without error |
| Bot.DrainConcat | telegrapy/bot.py:62-73 | payloads that all parse are handled one after another, and the consumer then treats what follows them as if they had never been there |
| Bot.DrainStopsAtParseError | telegrapy/bot.py:62-64 | a payload whose chat type is unknown ends the loop with that payload's parse error. The payloads before it are handled in order, and none after it is read, whatever it holds |
| Bot.HasMessage | telegrapy/bot.py:87-88 | an update without a `message` key carries no message, and one whose `message` is an object carries one |
| Bot.Contribution | telegrapy/bot.py:87-89 | an update puts at most one payload on the queue |
| Bot.Payloads | telegrapy/bot.py:86-89 | a batch never queues more payloads than it has updates |
| Bot.NextOffset | telegrapy/bot.py:85-90 | an empty batch leaves the offset unchanged |
| Bot.PayloadsConcat | telegrapy/bot.py:86-89 | the payloads of a batch split into two pieces are the payloads of the first piece followed by those of the second: nothing lost, nothing reordered |
| Bot.PayloadsSnoc | telegrapy/bot.py:86-90 | each update in turn appends its message, if any, and moves the offset to its `update_id + 1` |
| Bot.PollStep | telegrapy/bot.py:83-90 | one batch appends to the queue, in batch order, the `message` payloads of the updates that have one. After a non-empty batch the offset is the last update's `update_id + 1`. A `None` batch changes nothing |
| Bot.PollingComposes | telegrapy/bot.py:81-90 | two batches polled in a row have the same effect on the queue and the offset as their concatenation polled once |
| Bot.UpdateWithoutMessageSkipped | telegrapy/bot.py:87-89 | an update without a message, or with a null one, contributes nothing to the queue |
| Bot.PayloadsAllMessages | telegrapy/bot.py:86-89 | when every update carries a message, the queue receives one payload per update, namely that update's message, in order |
| Bot.ThreeUpdateExample | telegrapy/bot.py:85-90 | updates 10, 11 (no message) and 12 queue the messages of 10 and 12 and move the offset to 13 |
| Bot.PollThenDrain | telegrapy/bot.py:63-90 | from an empty queue, one poll followed by the consumer handles every message of the batch exactly once, in batch order, provided every payload parses |

## Left out

- The `Bot` class (`telegrapy/bot.py:95-301`): every method except `run` and the `handler` and `updater` accessors is an HTTP request through `requests`; `run` only starts the two threads, which are left out below. That includes `get_updates`, whose result enters `PollStep` as a parameter, and the token check done at construction.
- `InvalidTokenException` is declared as an error constructor but never produced, because the network check that raises it is not modelled.
- Threads, `run_as_thread`, `time.sleep` and the unbounded `while True` loops. Single steps are modelled instead, plus `Drain` for the consumer run until it waits.
- Calling the handler itself. A handler is an opaque id.
- `Message.formatted_date` (time-zone dependent) and every `__repr__`.
- The `json` attribute every object stores. No property mentions it.
- The repository's top-level `bot.py` and `example.py`. They are an outdated copy of the registry and a usage script.
- Floating-point JSON numbers. The library never reads one.
- Missing required keys and ill-typed values are preconditions, not errors. A missing key such as `raw['id']`, `raw['is_bot']` or `entity['offset']` raises `KeyError`, and a text that is `None` while a command entity exists raises `TypeError`. Values of the wrong type are another matter: the parser stores them unchecked, so `parse_chat({'id': 'x', 'type': 'channel'})` raises `ParseException` in Python. The model instead restricts records to the types the constructors declare (`id: int`, `is_bot: bool`, `Optional[str]`, ...), which are the types the bot API sends.
- TelegramParser.ParseMessage: the bot name is a string. The default `None` of `parse_message` would raise `TypeError` on a command message, and `Handler` always passes its username.
- Bot.PollStep: the offset is an optional integer. A caller-supplied string start offset, which the source's signature admits, is not modelled. Every update must be a dict with an integer `update_id`.
- Telegram.IntHash: it models CPython's integer hash on 64-bit builds (modulus 2^61 − 1). Only its consistency with equality matters to the library.
- Telegram.Message.ChatId: the `chat_id` property has no contract of its own. `TelegramParser.ParseMessageChatId` states what it returns.

=== FILE: bot.dfy ===
/**
 * The dispatch side of the library: the `Handler` registry that maps command
 * words and exact texts to handlers, one iteration of its consumer loop, and
 * one iteration of the `Updater` loop that polls for updates and feeds the
 * hand-off queue. Handlers are user callables; here each is an opaque
 * identifier, and "invoking" one means returning which identifier would be
 * called. The queue is the FIFO `queue.Queue` the two loops share, modelled as
 * a sequence whose head is the next item `get` returns.
 */
module Bot {
  import opened Wrappers
  import opened Json
  import opened Telegram
  import opened TelegramError
  import opened TelegramParser
  import Seqs

  /** Names a registered handler callable. */
  type HandlerId = nat

  /** The `Handler` object's two dictionaries (its queue is threaded through the step functions). */
  datatype Registry = Registry(commands: map<string, HandlerId>, messages: map<string, HandlerId>)

  /** What `dict.__getitem__` raises for a missing key. */
  datatype LookupError = KeyError(key: string)

  /** `Handler.__init__`: both maps start empty. */
  function NewRegistry(): (r: Registry)
    ensures r.commands == map[] && r.messages == map[]
  {
    Registry(map[], map[])
  }

  /** `add_command`: last write wins, nothing else changes. */
  function AddCommand(reg: Registry, command: string, handler: HandlerId): (r: Registry)
    ensures command in r.commands && r.commands[command] == handler
    ensures r.commands.Keys == reg.commands.Keys + {command}
    ensures forall c :: c in reg.commands && c != command ==> r.commands[c] == reg.commands[c]
    ensures r.messages == reg.messages
  {
    reg.(commands := reg.commands[command := handler])
  }

  /**
   * `add_commands`: `add_command` for every entry of the given dictionary. Its
   * keys are distinct, so the order of the loop does not matter.
   */
  method AddCommands(reg: Registry, commandMap: map<string, HandlerId>) returns (r: Registry)
    ensures r.commands == reg.commands + commandMap
    ensures r.messages == reg.messages
  {
    r := reg;
    var pending := commandMap.Keys;
    while pending != {}
      invariant pending <= commandMap.Keys
      invariant r.messages == reg.messages
      invariant r.commands.Keys == reg.commands.Keys + (commandMap.Keys - pending)
      invariant forall c :: c in commandMap && c !in pending ==> r.commands[c] == commandMap[c]
      invariant forall c :: c in reg.commands && c !in commandMap ==> r.commands[c] == reg.commands[c]
      invariant forall c :: c in pending && c in reg.commands ==> r.commands[c] == reg.commands[c]
      decreases pending
    {
      var c :| c in pending;
      r := AddCommand(r, c, commandMap[c]);
      pending := pending - {c};
    }
  }

  /** `add_message`: last write wins, nothing else changes. */
  function AddMessage(reg: Registry, text: string, handler: HandlerId): (r: Registry)
    ensures text in r.messages && r.messages[text] == handler
    ensures r.messages.Keys == reg.messages.Keys + {text}
    ensures forall t :: t in reg.messages && t != text ==> r.messages[t] == reg.messages[t]
    ensures r.commands == reg.commands
  {
    reg.(messages := reg.messages[text := handler])
  }

  /** `Handler[k]`: raises `KeyError` for a command that is not registered. */
  function GetItem(reg: Registry, k: string): (r: Result<HandlerId, LookupError>)
    ensures r.Success? <==> k in reg.commands
    ensures r.Success? ==> r.value == reg.commands[k]
    ensures r.Failure? ==> r.error == KeyError(k)
  {
    if k in reg.commands then Success(reg.commands[k]) else Failure(KeyError(k))
  }

  /** `get_command_handler`: `None` for a command that is not registered. */
  function GetCommandHandler(reg: Registry, msg: Message): (r: Option<HandlerId>)
    ensures r.Some? <==> msg.command in reg.commands
    ensures r.Some? ==> r.value == reg.commands[msg.command]
  {
    if msg.command in reg.commands then Some(reg.commands[msg.command]) else None
  }

  /**
   * `get_message_handler`: looks up the exact text. The keys are strings, so a
   * message without text finds nothing.
   */
  function GetMessageHandler(reg: Registry, msg: Message): (r: Option<HandlerId>)
    ensures r.Some? <==> msg.text.Some? && msg.text.value in reg.messages
    ensures r.Some? ==> r.value == reg.messages[msg.text.value]
  {
    if msg.text.Some? && msg.text.value in reg.messages then Some(reg.messages[msg.text.value]) else None
  }

  /** The choice `run_forever` makes: the command map for a command, the text map otherwise. */
  function Resolve(reg: Registry, msg: Message): (r: Option<HandlerId>)
    ensures msg.isCommand ==> (r.Some? <==> msg.command in reg.commands)
    ensures msg.isCommand && r.Some? ==> r.value == reg.commands[msg.command]
    ensures !msg.isCommand ==> (r.Some? <==> msg.text.Some? && msg.text.value in reg.messages)
    ensures !msg.isCommand && r.Some? ==> r.value == reg.messages[msg.text.value]
  {
    if msg.isCommand then GetCommandHandler(reg, msg) else GetMessageHandler(reg, msg)
  }

  /** A command never consults the text map, and an ordinary message never consults the command map. */
  lemma ResolveReadsOneMap(r1: Registry, r2: Registry, msg: Message)
    ensures msg.isCommand && r1.commands == r2.commands ==> Resolve(r1, msg) == Resolve(r2, msg)
    ensures !msg.isCommand && r1.messages == r2.messages ==> Resolve(r1, msg) == Resolve(r2, msg)
  {
  }

  /** Registering a command twice leaves only the second handler resolvable. */
  lemma AddCommandLastWriteWins(reg: Registry, c: string, h1: HandlerId, h2: HandlerId)
    ensures AddCommand(AddCommand(reg, c, h1), c, h2) == AddCommand(reg, c, h2)
  {
  }

  /** Registering a text twice leaves only the second handler resolvable. */
  lemma AddMessageLastWriteWins(reg: Registry, t: string, h1: HandlerId, h2: HandlerId)
    ensures AddMessage(AddMessage(reg, t, h1), t, h2) == AddMessage(reg, t, h2)
  {
  }

  /** Indexing and `get_command_handler` agree on registered commands and differ only in how they report a miss. */
  lemma GetItemAgreesWithGet(reg: Registry, msg: Message)
    ensures GetItem(reg, msg.command).Success? <==> GetCommandHandler(reg, msg).Some?
    ensures GetItem(reg, msg.command).Success? ==>
              GetItem(reg, msg.command).value == GetCommandHandler(reg, msg).value
    ensures GetItem(reg, msg.command).Failure? ==> GetItem(reg, msg.command).error == KeyError(msg.command)
  {
  }

  // ---------------------------------------------------------------------------
  // The consumer loop (`Handler.run_forever`), one item at a time.
  // ---------------------------------------------------------------------------

  /** A payload the model accepts for `parse_message`: an object holding a message record. */
  predicate PayloadOk(p: Json) {
    p.JObj? && MessageRecordOk(p.fields)
  }

  /** Which handler a dispatched message went to; `None` means no handler matched and nothing was called. */
  datatype Invocation = Invocation(message: Message, handler: Option<HandlerId>)

  /** The outcome of one iteration of the consumer loop. */
  datatype Step =
    /** The queue is empty: `get(block=True)` waits. */
    | Waiting
    /** The head was parsed and resolved; `rest` is the queue after `get`. */
    | Dispatched(invocation: Invocation, rest: seq<Json>)
    /** The head failed to parse; the exception ends the loop. */
    | Crashed(error: TelegramError, rest: seq<Json>)

  /** One iteration of `Handler.run_forever` with the bot's own username. */
  function DispatchStep(reg: Registry, username: string, queue: seq<Json>): (s: Step)
    requires queue != [] ==> PayloadOk(queue[0])
    ensures s.Waiting? <==> queue == []
    ensures !s.Waiting? ==> s.rest == queue[1..]
    ensures s.Crashed? <==> queue != [] && ParseMessage(queue[0].fields, username).Failure?
    ensures s.Crashed? ==> s.error == ParseMessage(queue[0].fields, username).error
    ensures s.Dispatched? ==>
      && ParseMessage(queue[0].fields, username) == Success(s.invocation.message)
      && s.invocation.handler == Resolve(reg, s.invocation.message)
  {
    if queue == [] then Waiting
    else match ParseMessage(queue[0].fields, username)
      case Failure(err) => Crashed(err, queue[1..])
      case Success(msg) => Dispatched(Invocation(msg, Resolve(reg, msg)), queue[1..])
  }

  /** Every payload in the queue is one the model accepts for `parse_message`. */
  predicate QueueOk(queue: seq<Json>) {
    forall i :: 0 <= i < |queue| ==> PayloadOk(queue[i])
  }

  /**
   * Every payload the consumer reaches is well-formed. The loop reads the
   * payloads up to and including the first one that fails to parse, and
   * nothing after it.
   */
  predicate DrainOk(username: string, queue: seq<Json>)
    decreases |queue|
  {
    queue != [] ==>
      && PayloadOk(queue[0])
      && (ParseMessage(queue[0].fields, username).Success? ==> DrainOk(username, queue[1..]))
  }

  /**
   * Runs the consumer until it waits on an empty queue or crashes: the
   * invocations in order, and the exception that ended the loop, if any.
   */
  function Drain(reg: Registry, username: string, queue: seq<Json>): (r: (seq<Invocation>, Option<TelegramError>))
    requires DrainOk(username, queue)
    ensures |r.0| <= |queue|
    decreases |queue|
  {
    match DispatchStep(reg, username, queue)
    case Waiting => ([], None)
    case Crashed(err, _) => ([], Some(err))
    case Dispatched(inv, rest) =>
      var (invs, err) := Drain(reg, username, rest);
      ([inv] + invs, err)
  }

  /** Every payload parses. */
  predicate AllParse(username: string, queue: seq<Json>)
    requires QueueOk(queue)
  {
    forall i :: 0 <= i < |queue| ==> ParseMessage(queue[i].fields, username).Success?
  }

  /** The tail of a queue whose payloads are all well-formed and parse keeps both properties. */
  lemma TailParses(username: string, queue: seq<Json>)
    requires queue != [] && QueueOk(queue) && AllParse(username, queue)
    ensures QueueOk(queue[1..]) && AllParse(username, queue[1..])
  {
    forall i | 0 <= i < |queue[1..]|
      ensures PayloadOk(queue[1..][i]) && ParseMessage(queue[1..][i].fields, username).Success?
    {
      assert queue[1..][i] == queue[i + 1];
    }
  }

  /** A queue whose payloads are all well-formed and all parse is one the consumer can drain. */
  lemma {:induction false} AllParseDrainOk(username: string, queue: seq<Json>)
    requires QueueOk(queue) && AllParse(username, queue)
    ensures DrainOk(username, queue)
    decreases |queue|
  {
    if queue != [] {
      TailParses(username, queue);
      AllParseDrainOk(username, queue[1..]);
    }
  }

  /** `inv` is what the consumer does with payload `p`: its parsed message and the handler `Resolve` picks. */
  predicate HandledAs(reg: Registry, username: string, inv: Invocation, p: Json)
    requires PayloadOk(p)
  {
    Success(inv.message) == ParseMessage(p.fields, username) && inv.handler == Resolve(reg, inv.message)
  }

  /** What the consumer does with a payload that parses. */
  function Handle(reg: Registry, username: string, p: Json): (inv: Invocation)
    requires PayloadOk(p) && ParseMessage(p.fields, username).Success?
    ensures HandledAs(reg, username, inv, p)
  {
    var m := ParseMessage(p.fields, username).value;
    Invocation(m, Resolve(reg, m))
  }

  /** A payload that parses in front of a queue is handled first; then the consumer goes on with the queue. */
  lemma DrainCons(reg: Registry, username: string, p: Json, tail: seq<Json>)
    requires PayloadOk(p) && ParseMessage(p.fields, username).Success? && DrainOk(username, tail)
    ensures DrainOk(username, [p] + tail)
    ensures Drain(reg, username, [p] + tail).0 == [Handle(reg, username, p)] + Drain(reg, username, tail).0
    ensures Drain(reg, username, [p] + tail).1 == Drain(reg, username, tail).1
  {
    var q := [p] + tail;
    assert q[0] == p && q[1..] == tail;
  }

  /**
   * When every payload parses, the consumer handles each of them exactly once,
   * in queue order, each with the handler `Resolve` picks, and then waits.
   */
  lemma {:induction false} DrainHandlesAllInOrder(reg: Registry, username: string, queue: seq<Json>)
    requires QueueOk(queue)
    requires AllParse(username, queue)
    ensures DrainOk(username, queue)
    ensures var (invs, err) := Drain(reg, username, queue);
      && err.None?
      && |invs| == |queue|
      && forall i :: 0 <= i < |queue| ==> HandledAs(reg, username, invs[i], queue[i])
    decreases |queue|
  {
    AllParseDrainOk(username, queue);
    if queue != [] {
      var tail := queue[1..];
      TailParses(username, queue);
      DrainHandlesAllInOrder(reg, username, tail);
      Seqs.HeadTail(queue);
      DrainCons(reg, username, queue[0], tail);
      var inv := Handle(reg, username, queue[0]);
      var (invs, err) := Drain(reg, username, tail);
      forall i | 0 <= i < |queue|
        ensures HandledAs(reg, username, ([inv] + invs)[i], queue[i])
      {
        if i > 0 {
          assert ([inv] + invs)[i] == invs[i - 1] && queue[i] == tail[i - 1];
        }
      }
    }
  }

  /**
   * Payloads that all parse are handled one after another, and the consumer
   * then goes on with whatever follows them as if they had never been there.
   */
  lemma {:induction false} DrainConcat(reg: Registry, username: string, good: seq<Json>, rest: seq<Json>)
    requires QueueOk(good) && AllParse(username, good) && DrainOk(username, rest)
    ensures DrainOk(username, good) && DrainOk(username, good + rest)
    ensures Drain(reg, username, good + rest).0 == Drain(reg, username, good).0 + Drain(reg, username, rest).0
    ensures Drain(reg, username, good + rest).1 == Drain(reg, username, rest).1
    decreases |good|
  {
    AllParseDrainOk(username, good);
    if good == [] {
      assert good + rest == rest;
      assert Drain(reg, username, good).0 == [];
      assert [] + Drain(reg, username, rest).0 == Drain(reg, username, rest).0;
    } else {
      DrainConcatStep(reg, username, good, rest);
    }
  }

  /** The inductive step of `DrainConcat`, peeling the first payload off. */
  lemma {:induction false} DrainConcatStep(reg: Registry, username: string, good: seq<Json>, rest: seq<Json>)
    requires good != [] && QueueOk(good) && AllParse(username, good) && DrainOk(username, rest)
    ensures DrainOk(username, good) && DrainOk(username, good + rest)
    ensures Drain(reg, username, good + rest).0 == Drain(reg, username, good).0 + Drain(reg, username, rest).0
    ensures Drain(reg, username, good + rest).1 == Drain(reg, username, rest).1
    decreases |good|, 0
  {
    var g, tail := good[0], good[1..];
    assert good == [g] + tail;
    assert good + rest == [g] + (tail + rest);
    TailParses(username, good);
    DrainConcat(reg, username, tail, rest);
    DrainCons(reg, username, g, tail + rest);
    DrainCons(reg, username, g, tail);
    var h, a, b := Handle(reg, username, g), Drain(reg, username, tail).0, Drain(reg, username, rest).0;
    Seqs.ConsAssoc(h, a, b);
  }

  /**
   * A payload whose chat type is unknown ends the loop: the payloads before it
   * are handled, and none after it is read, whatever it holds.
   */
  lemma DrainStopsAtParseError(reg: Registry, username: string, good: seq<Json>, bad: Json, after: seq<Json>)
    requires QueueOk(good) && PayloadOk(bad)
    requires AllParse(username, good)
    requires ParseMessage(bad.fields, username).Failure?
    ensures DrainOk(username, good + [bad] + after)
    ensures var (invs, err) := Drain(reg, username, good + [bad] + after);
      && |invs| == |good|
      && (forall i :: 0 <= i < |good| ==> HandledAs(reg, username, invs[i], good[i]))
      && err == Some(ParseException(bad.fields["chat"]))
  {
    var rest := [bad] + after;
    assert rest[0] == bad;
    assert DrainOk(username, rest);
    DrainConcat(reg, username, good, rest);
    Seqs.AppendAssoc(good, [bad], after);
    DrainHandlesAllInOrder(reg, username, good);
  }

  // ---------------------------------------------------------------------------
  // The producer loop (`Updater.run_forever`), one batch at a time.
  // ---------------------------------------------------------------------------

  /** An update is a dict with an integer `update_id`, as the loop assumes. */
  predicate UpdateOk(u: Json) {
    u.JObj? && HasInt(u.fields, "update_id")
  }

  /** Every update in a batch is well-formed. */
  predicate BatchOk(batch: seq<Json>) {
    forall i :: 0 <= i < |batch| ==> UpdateOk(batch[i])
  }

  /** `update.get('message', None) is not None`. */
  predicate HasMessage(u: Json): (b: bool)
    requires u.JObj?
    ensures "message" !in u.fields ==> !b
    ensures "message" in u.fields && u.fields["message"].JObj? ==> b
  {
    "message" in u.fields && u.fields["message"] != JNull
  }

  /** What one update puts on the queue: its message, if it has one. */
  function Contribution(u: Json): (ps: seq<Json>)
    requires u.JObj?
    ensures |ps| <= 1
  {
    if HasMessage(u) then [u.fields["message"]] else []
  }

  /** The message payloads of a batch, in batch order. */
  function Payloads(batch: seq<Json>): (ps: seq<Json>)
    requires BatchOk(batch)
    ensures |ps| <= |batch|
  {
    if batch == [] then [] else Contribution(batch[0]) + Payloads(batch[1..])
  }

  /** The offset for the next fetch: one past the last update's id, or unchanged after an empty batch. */
  function NextOffset(offset: Option<int>, batch: seq<Json>): (o: Option<int>)
    requires BatchOk(batch)
    ensures batch == [] ==> o == offset
  {
    if batch == [] then offset else Some(batch[|batch| - 1].fields["update_id"].i + 1)
  }

  lemma BatchOkConcat(a: seq<Json>, b: seq<Json>)
    requires BatchOk(a) && BatchOk(b)
    ensures BatchOk(a + b)
  {
    forall i | 0 <= i < |a + b| ensures UpdateOk((a + b)[i]) {
      if i < |a| { assert (a + b)[i] == a[i]; } else { assert (a + b)[i] == b[i - |a|]; }
    }
  }

  lemma BatchOkSlice(batch: seq<Json>, lo: int, hi: int)
    requires BatchOk(batch) && 0 <= lo <= hi <= |batch|
    ensures BatchOk(batch[lo..hi])
  {
    forall i | 0 <= i < hi - lo ensures UpdateOk(batch[lo..hi][i]) {
      assert batch[lo..hi][i] == batch[lo + i];
    }
  }

  /** Payloads of consecutive pieces of a batch are consecutive pieces of the payloads. */
  lemma {:induction false} PayloadsConcat(a: seq<Json>, b: seq<Json>)
    requires BatchOk(a) && BatchOk(b)
    ensures BatchOk(a + b)
    ensures Payloads(a + b) == Payloads(a) + Payloads(b)
    decreases |a|
  {
    BatchOkConcat(a, b);
    if a != [] {
      Seqs.TailConcat(a, b);
      BatchOkSlice(a, 1, |a|);
      PayloadsConcat(a[1..], b);
      Seqs.AppendAssoc(Contribution(a[0]), Payloads(a[1..]), Payloads(b));
    } else {
      assert a + b == b;
    }
  }

  /** Extending a prefix of the batch by one update adds that update's contribution and moves the offset past it. */
  lemma PayloadsSnoc(offset: Option<int>, batch: seq<Json>, i: int)
    requires BatchOk(batch) && 0 <= i < |batch|
    ensures BatchOk(batch[..i]) && BatchOk(batch[..i + 1])
    ensures Payloads(batch[..i + 1]) == Payloads(batch[..i]) + Contribution(batch[i])
    ensures NextOffset(offset, batch[..i + 1]) == Some(batch[i].fields["update_id"].i + 1)
  {
    var u := batch[i];
    assert batch[..i + 1] == batch[..i] + [u];
    BatchOkSlice(batch, 0, i);
    BatchOkSlice(batch, i, i + 1);
    assert batch[i..i + 1] == [u];
    PayloadsConcat(batch[..i], [u]);
    assert Payloads([u]) == Contribution(u) by {
      assert [u][1..] == [];
    }
  }

  /**
   * One iteration of `Updater.run_forever` after `get_updates` returned
   * `result`: every message payload is put on the queue in batch order, and
   * the offset moves past each update, message or not. `None` and an empty
   * batch change nothing. The sleep that follows is left out.
   */
  method PollStep(offset: Option<int>, queue: seq<Json>, result: Option<seq<Json>>)
      returns (offset': Option<int>, queue': seq<Json>)
    requires result.Some? ==> BatchOk(result.value)
    ensures result.None? ==> offset' == offset && queue' == queue
    ensures result.Some? ==> queue' == queue + Payloads(result.value)
    ensures result.Some? ==> offset' == NextOffset(offset, result.value)
  {
    offset', queue' := offset, queue;
    if result.Some? && result.value != [] {
      var batch := result.value;
      var i := 0;
      while i < |batch|
        invariant 0 <= i <= |batch|
        invariant BatchOk(batch[..i])
        invariant queue' == queue + Payloads(batch[..i])
        invariant offset' == NextOffset(offset, batch[..i])
      {
        var u := batch[i];
        PayloadsSnoc(offset, batch, i);
        Seqs.AppendAssoc(queue, Payloads(batch[..i]), Contribution(u));
        if "message" in u.fields && u.fields["message"] != JNull {
          queue' := queue' + [u.fields["message"]];
        }
        offset' := Some(u.fields["update_id"].i + 1);
        i := i + 1;
      }
      assert batch[..i] == batch;
    } else if result.Some? {
      assert Payloads(result.value) == [];
    }
  }

  /** Polling two batches in a row has the same effect as polling their concatenation. */
  lemma PollingComposes(offset: Option<int>, queue: seq<Json>, a: seq<Json>, b: seq<Json>)
    requires BatchOk(a) && BatchOk(b)
    ensures BatchOk(a + b)
    ensures queue + Payloads(a) + Payloads(b) == queue + Payloads(a + b)
    ensures NextOffset(NextOffset(offset, a), b) == NextOffset(offset, a + b)
  {
    PayloadsConcat(a, b);
    Seqs.AppendAssoc(queue, Payloads(a), Payloads(b));
    if b != [] {
      assert (a + b)[|a + b| - 1] == b[|b| - 1];
    } else {
      assert a + b == a;
    }
  }

  /** An update without a message contributes nothing to the queue. */
  lemma UpdateWithoutMessageSkipped(a: seq<Json>, u: Record, b: seq<Json>)
    requires BatchOk(a) && HasInt(u, "update_id") && BatchOk(b)
    requires !HasMessage(JObj(u))
    ensures BatchOk(a + [JObj(u)] + b)
    ensures Payloads(a + [JObj(u)] + b) == Payloads(a) + Payloads(b)
  {
    var w := [JObj(u)];
    assert BatchOk(w) by { assert w[0] == JObj(u); }
    assert Payloads(w) == [] by { assert w[1..] == []; }
    PayloadsConcat(a, w);
    assert Payloads(a + w) == Payloads(a);
    PayloadsConcat(a + w, b);
  }

  /** When every update carries a message, the queue receives all of them, one per update, in order. */
  lemma {:induction false} PayloadsAllMessages(batch: seq<Json>)
    requires BatchOk(batch)
    requires forall i :: 0 <= i < |batch| ==> "message" in batch[i].fields && batch[i].fields["message"] != JNull
    ensures |Payloads(batch)| == |batch|
    ensures forall i :: 0 <= i < |batch| ==> Payloads(batch)[i] == batch[i].fields["message"]
    decreases |batch|
  {
    if batch != [] {
      var tail := batch[1..];
      assert BatchOk(tail) by {
        forall i | 0 <= i < |tail| ensures tail[i] == batch[i + 1] { }
      }
      PayloadsAllMessages(tail);
      forall i | 1 <= i < |batch| ensures Payloads(batch)[i] == batch[i].fields["message"] {
        assert tail[i - 1] == batch[i];
      }
    }
  }

  /**
   * The batch 10, 11, 12 where update 11 carries no message: two payloads are
   * queued, those of 10 and 12, and the next fetch asks for offset 13.
   */
  lemma ThreeUpdateExample(u10: Record, u11: Record, u12: Record)
    requires "update_id" in u10 && u10["update_id"] == JInt(10) && "message" in u10 && u10["message"] != JNull
    requires "update_id" in u11 && u11["update_id"] == JInt(11) && "message" !in u11
    requires "update_id" in u12 && u12["update_id"] == JInt(12) && "message" in u12 && u12["message"] != JNull
    ensures BatchOk([JObj(u10), JObj(u11), JObj(u12)])
    ensures Payloads([JObj(u10), JObj(u11), JObj(u12)]) == [u10["message"], u12["message"]]
    ensures NextOffset(None, [JObj(u10), JObj(u11), JObj(u12)]) == Some(13)
  {
    var batch := [JObj(u10), JObj(u11), JObj(u12)];
    var last := [JObj(u12)];
    assert BatchOk(last);
    assert Payloads(last) == [u12["message"]] by { assert last[1..] == []; }
    var tail := [JObj(u11), JObj(u12)];
    assert BatchOk(tail);
    assert Payloads(tail) == Payloads(last) by { assert tail[1..] == last; }
    assert batch[1..] == tail;
  }

  /**
   * From an empty queue, one poll followed by the consumer running until it
   * waits handles every message of the batch exactly once, in batch order,
   * provided every payload parses.
   */
  lemma PollThenDrain(reg: Registry, username: string, batch: seq<Json>)
    requires BatchOk(batch)
    requires QueueOk(Payloads(batch)) && AllParse(username, Payloads(batch))
    ensures DrainOk(username, Payloads(batch))
    ensures var ps := Payloads(batch);
      var (invs, err) := Drain(reg, username, ps);
      && err.None? && |invs| == |ps|
      && forall i :: 0 <= i < |ps| ==> HandledAs(reg, username, invs[i], ps[i])
  {
    DrainHandlesAllInOrder(reg, username, Payloads(batch));
  }
}

=== FILE: json.dfy ===
/**
 * Raw records as decoded from the platform's JSON responses. Python's
 * `json` module maps `null` to `None`, so `JNull` is `None` wherever a raw
 * value flows into the library. Floating-point numbers never occur in the
 * fields the library reads and are not represented.
 */
module Json {
  import opened Wrappers

  datatype Json =
    | JNull
    | JBool(b: bool)
    | JInt(i: int)
    | JStr(s: string)
    | JArr(items: seq<Json>)
    | JObj(fields: map<string, Json>)

  /** A decoded JSON object, the `dict` every parser function receives. */
  type Record = map<string, Json>

  /** The key is present and holds an integer. */
  predicate HasInt(raw: Record, key: string) {
    key in raw && raw[key].JInt?
  }

  /** The key is present and holds a string. */
  predicate HasStr(raw: Record, key: string) {
    key in raw && raw[key].JStr?
  }

  /** The key is present and holds a boolean. */
  predicate HasBool(raw: Record, key: string) {
    key in raw && raw[key].JBool?
  }

  /** The key, if present, holds a string or null (an `Optional[str]` field). */
  predicate OptStrOk(raw: Record, key: string) {
    key !in raw || raw[key].JNull? || raw[key].JStr?
  }

  /**
   * `raw[key] if key in raw else None` for an `Optional[str]` field:
   * absent and null both read as `None`.
   */
  function OptStr(raw: Record, key: string): (r: Option<string>)
    requires OptStrOk(raw, key)
    ensures r.None? <==> (key !in raw || raw[key] == JNull)
    ensures r.Some? ==> raw[key] == JStr(r.value)
  {
    if key in raw && raw[key].JStr? then Some(raw[key].s) else None
  }
}

=== FILE: pystr.dfy ===
/**
 * The three Python `str` operations the command derivation relies on, with
 * Python's exact semantics: slicing `s[a:b]` (negative indices count from the
 * end, out-of-range bounds clamp), `s.replace(p, '')` (a single left-to-right
 * pass deleting non-overlapping occurrences) and `s.strip()` (Unicode
 * whitespace at both ends).
 */
module PyStr {

  /** Normalises one slice bound the way CPython does for a step of 1. */
  function ClampIndex(i: int, n: nat): (k: nat)
    ensures k <= n
  {
    if i < 0 then (if i + n < 0 then 0 else i + n)
    else if i > n then n
    else i
  }

  /** A bound inside the string is kept, a negative one counts from the end, and both clamp to `[0, n]`. */
  lemma ClampIndexSpec(i: int, n: nat)
    ensures 0 <= i <= n ==> ClampIndex(i, n) == i
    ensures i > n ==> ClampIndex(i, n) == n
    ensures i < 0 <= i + n ==> ClampIndex(i, n) == i + n
    ensures i + n < 0 ==> ClampIndex(i, n) == 0
  {
  }

  /** The pattern `p` occurs in `s` starting at position `i`. */
  predicate OccursAt(p: string, s: string, i: int) {
    0 <= i && i + |p| <= |s| && s[i..i + |p|] == p
  }

  /** Cutting a string at two points and gluing the pieces back gives the string. */
  lemma SplitAt(s: string, i: int, j: int)
    requires 0 <= i <= j <= |s|
    ensures s == s[..i] + s[i..j] + s[j..]
  {
  }

  /** The pattern `p` occurs somewhere in `s`. */
  ghost predicate Occurs(p: string, s: string) {
    exists i :: OccursAt(p, s, i)
  }

  /** `s[a:b]`. */
  function Slice(s: string, a: int, b: int): (r: string)
    ensures |r| <= |s|
    ensures 0 <= a <= b <= |s| ==> r == s[a..b]
    ensures 0 <= a <= |s| <= b ==> r == s[a..]
    ensures a >= |s| ==> r == []
  {
    var lo := ClampIndex(a, |s|);
    var hi := ClampIndex(b, |s|);
    if lo < hi then s[lo..hi] else []
  }

  /** Whatever the bounds, a slice is a contiguous piece of the string, empty when the bounds cross. */
  lemma SliceIsInfix(s: string, a: int, b: int)
    ensures Occurs(Slice(s, a, b), s)
    ensures b <= a && (a < 0 <==> b < 0) ==> Slice(s, a, b) == []
  {
    var lo := ClampIndex(a, |s|);
    var hi := ClampIndex(b, |s|);
    if lo < hi {
      assert OccursAt(Slice(s, a, b), s, lo);
    } else {
      assert OccursAt(Slice(s, a, b), s, 0);
    }
  }

  /** `s[a:]`. */
  function SliceFrom(s: string, a: int): (r: string)
    ensures 0 <= a <= |s| ==> r == s[a..]
    ensures a >= |s| ==> r == []
    ensures r == s[ClampIndex(a, |s|)..]
  {
    Slice(s, a, |s|)
  }

  /**
   * `s.replace(p, '')`. Python treats an empty pattern as matching between
   * every pair of characters, and replacing those matches by '' is the identity.
   */
  function RemoveAll(s: string, p: string): (r: string)
    ensures |r| <= |s|
    ensures p == [] ==> r == s
    decreases |s|
  {
    if p == [] || s == [] then s
    else if |p| <= |s| && s[..|p|] == p then RemoveAll(s[|p|..], p)
    else [s[0]] + RemoveAll(s[1..], p)
  }

  /** A pattern that does not occur is not removed. */
  lemma {:induction false} RemoveAllAbsent(s: string, p: string)
    requires !Occurs(p, s)
    ensures RemoveAll(s, p) == s
    decreases |s|
  {
    if p == [] || s == [] {
    } else {
      assert !OccursAt(p, s, 0);
      assert !(|p| <= |s| && s[..|p|] == p);
      forall i | OccursAt(p, s[1..], i)
        ensures false
      {
        assert s[1..][i..i + |p|] == s[i + 1..i + 1 + |p|];
        assert OccursAt(p, s, i + 1);
      }
      RemoveAllAbsent(s[1..], p);
    }
  }

  /** A non-empty pattern that occurs makes the result strictly shorter. */
  lemma {:induction false} RemoveAllPresentShrinks(s: string, p: string, i: int)
    requires p != []
    requires OccursAt(p, s, i)
    ensures |RemoveAll(s, p)| < |s|
    decreases |s|
  {
    if |p| <= |s| && s[..|p|] == p {
    } else {
      assert i != 0;
      assert s[1..][i - 1..i - 1 + |p|] == s[i..i + |p|];
      RemoveAllPresentShrinks(s[1..], p, i - 1);
    }
  }

  /** Deleting a non-empty pattern changes the string exactly when the pattern occurs. */
  lemma RemoveAllIdentityIff(s: string, p: string)
    requires p != []
    ensures RemoveAll(s, p) == s <==> !Occurs(p, s)
  {
    if Occurs(p, s) {
      var i :| OccursAt(p, s, i);
      RemoveAllPresentShrinks(s, p, i);
    } else {
      RemoveAllAbsent(s, p);
    }
  }

  /** A prefix none of whose characters can start the pattern passes through unchanged. */
  lemma {:induction false} RemoveAllKeepsPrefix(x: string, s: string, p: string)
    requires p != []
    requires forall i :: 0 <= i < |x| ==> x[i] != p[0]
    ensures RemoveAll(x + s, p) == x + RemoveAll(s, p)
    decreases |x|
  {
    if x == [] {
      assert x + s == s;
    } else {
      var xs := x + s;
      assert xs[0] == x[0];
      assert xs[1..] == x[1..] + s;
      RemoveAllKeepsPrefix(x[1..], s, p);
      assert x == [x[0]] + x[1..];
    }
  }

  /** An occurrence in the tail is an occurrence one position later in the whole. */
  lemma OccursAtTail(p: string, s: string, i: nat)
    requires s != []
    ensures OccursAt(p, s[1..], i) <==> OccursAt(p, s, i + 1)
  {
    if i + |p| <= |s[1..]| {
      assert s[1..][i..i + |p|] == s[i + 1..i + 1 + |p|];
    }
  }

  /** No occurrence in the first `n` positions leaves none in the first `n - 1` of the tail. */
  lemma NoOccurrenceBeforeTail(p: string, s: string, n: nat)
    requires s != []
    requires forall i :: 0 <= i < n ==> !OccursAt(p, s, i)
    ensures forall i :: 0 <= i < n - 1 ==> !OccursAt(p, s[1..], i)
  {
    forall i | 0 <= i < n - 1 ensures !OccursAt(p, s[1..], i) {
      OccursAtTail(p, s, i);
    }
  }

  /**
   * The pass deletes the first occurrence of the pattern and carries on after
   * it: everything in front passes through, and the rest is processed the same
   * way. With `RemoveAllAbsent` this fixes the result for every input.
   */
  lemma {:induction false} RemoveAllAtFirst(x: string, p: string, y: string)
    requires p != []
    requires forall i :: 0 <= i < |x| ==> !OccursAt(p, x + p + y, i)
    ensures RemoveAll(x + p + y, p) == x + RemoveAll(y, p)
    decreases |x|
  {
    var s := x + p + y;
    if x == [] {
      assert s == p + y;
      assert s[..|p|] == p && s[|p|..] == y;
    } else {
      assert s[1..] == x[1..] + p + y;
      assert RemoveAll(s, p) == [x[0]] + RemoveAll(x[1..] + p + y, p) by {
        assert !OccursAt(p, s, 0);
        assert s[0] == x[0];
      }
      NoOccurrenceBeforeTail(p, s, |x|);
      RemoveAllAtFirst(x[1..], p, y);
      assert [x[0]] + (x[1..] + RemoveAll(y, p)) == x + RemoveAll(y, p) by {
        assert x == [x[0]] + x[1..];
      }
    }
  }

  /** Every occurrence goes, not only the first. */
  lemma RemoveBotNameTwice()
    ensures RemoveAll("a@mybot b@mybot", "mybot") == "a@ b@"
  {
    var p := "mybot";
    var t := p + " b@" + p;
    assert RemoveAll(t, p) == " b@" by {
      assert t[..|p|] == p && t[|p|..] == " b@" + p;
      RemoveAllKeepsPrefix(" b@", p, p);
      assert RemoveAll(p, p) == [] by { assert p[..|p|] == p && p[|p|..] == []; }
      assert " b@" + [] == " b@";
    }
    assert RemoveAll("a@" + t, p) == "a@" + " b@" by {
      RemoveAllKeepsPrefix("a@", t, p);
    }
    assert "a@" + t == "a@mybot b@mybot";
    assert "a@" + " b@" == "a@ b@";
  }

  /**
   * A single pass: an occurrence that only forms once another one has been
   * deleted stays, so `mymybotbot` keeps one `mybot`.
   */
  lemma RemoveAllSinglePass()
    ensures RemoveAll("mymybotbot", "mybot") == "mybot"
  {
    var p := "mybot";
    var t := "my" + p + "bot";
    assert t[2] == 'm';
    assert t[0..|p|][2] != p[2];
    assert t[1..1 + |p|][1] != p[1];
    RemoveAllAtFirst("my", p, "bot");
    assert "my" + p + "bot" == "mymybotbot";
    assert RemoveAll("bot", p) == "bot";
  }

  /** Only the bare name is deleted: the `@` in front of it stays. */
  lemma RemoveBotNameKeepsAt()
    ensures RemoveAll("echo@mybot", "mybot") == "echo@"
    ensures RemoveAll("mybot", "mybot") == ""
  {
    var p := "mybot";
    assert RemoveAll(p, p) == "" by { assert p[..|p|] == p && p[|p|..] == []; }
    RemoveAllKeepsPrefix("echo@", p, p);
    assert "echo@" + p == "echo@mybot";
  }

  /** With bot name `mybot`, `/start@mybot` yields the command `start@`. */
  lemma RemoveBotNameFromStart()
    ensures RemoveAll("start@mybot", "mybot") == "start@"
  {
    var p := "mybot";
    var x := "start@";
    assert RemoveAll(p, p) == "" by { assert p[..|p|] == p && p[|p|..] == []; }
    assert forall i :: 0 <= i < |x| ==> x[i] != p[0];
    RemoveAllKeepsPrefix(x, p, p);
    assert x + p == "start@mybot";
  }

  /** The characters for which Python's `str.isspace` holds. */
  predicate IsSpace(c: char): (b: bool)
    ensures c == ' ' || c == '\t' || c == '\n' || c == '\r' ==> b
    ensures '0' <= c <= '9' || 'a' <= c <= 'z' || 'A' <= c <= 'Z' || c == '_' || c == '@' ==> !b
  {
    var n := c as int;
    (0x09 <= n <= 0x0D) || (0x1C <= n <= 0x20) || n == 0x85 || n == 0xA0 || n == 0x1680
    || (0x2000 <= n <= 0x200A) || n == 0x2028 || n == 0x2029 || n == 0x202F
    || n == 0x205F || n == 0x3000
  }

  /** Drops leading whitespace. */
  function TrimStart(s: string): (r: string)
    ensures |r| <= |s| && r == s[|s| - |r|..]
    ensures forall k :: 0 <= k < |s| - |r| ==> IsSpace(s[k])
    ensures r == [] || !IsSpace(r[0])
    decreases |s|
  {
    if s != [] && IsSpace(s[0]) then TrimStart(s[1..]) else s
  }

  /** Drops trailing whitespace. */
  function TrimEnd(s: string): (r: string)
    ensures |r| <= |s| && r == s[..|r|]
    ensures forall k :: |r| <= k < |s| ==> IsSpace(s[k])
    ensures r == [] || !IsSpace(r[|r| - 1])
    decreases |s|
  {
    if s != [] && IsSpace(s[|s| - 1]) then TrimEnd(s[..|s| - 1]) else s
  }

  /**
   * `r` is `s[i..j]`, everything outside `[i, j)` is whitespace and, when `r`
   * is not empty, it neither starts nor ends with whitespace.
   */
  ghost predicate StrippedAt(s: string, r: string, i: int, j: int) {
    && 0 <= i <= j <= |s|
    && r == s[i..j]
    && (forall k :: 0 <= k < i ==> IsSpace(s[k]))
    && (forall k :: j <= k < |s| ==> IsSpace(s[k]))
    && (i < j ==> !IsSpace(s[i]) && !IsSpace(s[j - 1]))
  }

  /** `s.strip()`. */
  function Strip(s: string): (r: string)
    ensures |r| <= |s|
    ensures r == [] || (!IsSpace(r[0]) && !IsSpace(r[|r| - 1]))
  {
    TrimEnd(TrimStart(s))
  }

  /** `Strip` removes exactly the whitespace run at each end and keeps the middle intact. */
  lemma StripSpec(s: string)
    ensures exists i, j :: StrippedAt(s, Strip(s), i, j)
  {
    var t := TrimStart(s);
    var i := |s| - |t|;
    assert StrippedAt(s, Strip(s), i, i + |Strip(s)|);
  }

  /** A string that neither starts nor ends with whitespace is its own strip. */
  lemma StripTrimmed(s: string)
    requires s == [] || (!IsSpace(s[0]) && !IsSpace(s[|s| - 1]))
    ensures Strip(s) == s
  {
  }

  /** Leading whitespace does not reach the result. */
  lemma StripLeadingSpace(c: char, s: string)
    requires IsSpace(c)
    ensures Strip([c] + s) == Strip(s)
  {
    assert ([c] + s)[1..] == s;
  }

  /** The description `StrippedAt` admits a single result, so it pins `Strip` down. */
  lemma StrippedUnique(s: string, r1: string, i1: int, j1: int, r2: string, i2: int, j2: int)
    requires StrippedAt(s, r1, i1, j1)
    requires StrippedAt(s, r2, i2, j2)
    ensures r1 == r2
  {
  }

  /** Stripping twice is the same as stripping once. */
  lemma StripIdempotent(s: string)
    ensures Strip(Strip(s)) == Strip(s)
  {
    var r := Strip(s);
    assert StrippedAt(r, r, 0, |r|);
    var r2 := Strip(r);
    StripSpec(r);
    var i2, j2 :| StrippedAt(r, r2, i2, j2);
    StrippedUnique(r, r, 0, |r|, r2, i2, j2);
  }
}

=== FILE: seqs.dfy ===
/**
 * Small identities about sequence concatenation: associativity, and the
 * split of a non-empty sequence into its head and its tail.
 */
module Seqs {

  /** Concatenation is associative. */
  lemma AppendAssoc<T>(a: seq<T>, b: seq<T>, c: seq<T>)
    ensures a + b + c == a + (b + c)
  {
  }

  /** Associativity with a single element in front. */
  lemma ConsAssoc<T>(h: T, a: seq<T>, b: seq<T>)
    ensures [h] + (a + b) == ([h] + a) + b
  {
  }

  /** A non-empty sequence is its head followed by its tail. */
  lemma HeadTail<T>(s: seq<T>)
    requires s != []
    ensures s == [s[0]] + s[1..]
  {
  }

  /** Head and tail of a concatenation whose first piece is non-empty. */
  lemma TailConcat<T>(a: seq<T>, b: seq<T>)
    requires a != []
    ensures (a + b)[0] == a[0] && (a + b)[1..] == a[1..] + b
  {
  }
}

=== FILE: telegram.dfy ===
/**
 * The domain objects of the Telegram bot API as the library builds them:
 * users, the three chat kinds, and messages, whose constructor decides
 * whether the message is a bot command and, if so, splits the command word
 * off the text. Also the identity rule shared by all of them: two objects are
 * equal when they have the same class and the same id, and hash by id alone.
 */
module Telegram {
  import opened Wrappers
  import opened Json
  import opened PyStr

  /** A message entity, e.g. {"type": "bot_command", "offset": 0, "length": 6}. */
  type Entity = Record

  datatype User = User(id: int, isBot: bool, firstName: string, lastName: Option<string>, username: Option<string>)

  /** The subclasses of `Chat`, one constructor each, with their extra fields. */
  datatype Chat =
    | PrivateChat(id: int, username: Option<string>, firstName: Option<string>, lastName: Option<string>)
    | GroupChat(id: int, title: Option<string>)
    | SupergroupChat(id: int, title: Option<string>)
  {
    /** The `type` tag each subclass hands to `Chat.__init__`; it tells the variants apart. */
    function Type(): (t: string)
      ensures PrivateChat? <==> t == "private"
      ensures GroupChat? <==> t == "group"
      ensures SupergroupChat? <==> t == "supergroup"
    {
      match this
      case PrivateChat(_, _, _, _) => "private"
      case GroupChat(_, _) => "group"
      case SupergroupChat(_, _) => "supergroup"
    }
  }

  /**
   * A constructed message. `text` is the text after command derivation:
   * the input text for an ordinary message, the stripped remainder after the
   * command word for a command.
   */
  datatype Message = Message(
    id: int,
    date: int,
    chat: Chat,
    sender: Option<User>,
    entities: Option<seq<Entity>>,
    text: Option<string>,
    isCommand: bool,
    command: string)
  {
    /** The `chat_id` property. */
    function ChatId(): int {
      chat.id
    }
  }

  /** `'bot_command' in e.values()`: the marker may sit under any key, not only `type`. */
  predicate IsCommandEntity(e: Entity): (b: bool)
    ensures "type" in e && e["type"] == JStr("bot_command") ==> b
    ensures b <==> JStr("bot_command") in e.Values
  {
    exists k :: k in e && e[k] == JStr("bot_command")
  }

  /** The position of the entity `next(filter(..., entities), None)` yields: the first command entity. */
  function FirstCommand(es: seq<Entity>): (r: Option<nat>)
    ensures r.Some? ==> r.value < |es| && IsCommandEntity(es[r.value])
  {
    if es == [] then None
    else if IsCommandEntity(es[0]) then Some(0)
    else match FirstCommand(es[1..])
      case None => None
      case Some(k) => Some(k + 1)
  }

  /** No entity before the one found is a command entity, and none is found only when there is none. */
  lemma {:induction false} FirstCommandIsFirst(es: seq<Entity>)
    ensures FirstCommand(es).Some? ==> forall j :: 0 <= j < FirstCommand(es).value ==> !IsCommandEntity(es[j])
    ensures FirstCommand(es).None? <==> forall j :: 0 <= j < |es| ==> !IsCommandEntity(es[j])
  {
    if es != [] && !IsCommandEntity(es[0]) {
      FirstCommandIsFirst(es[1..]);
      assert forall j :: 1 <= j < |es| ==> es[j] == es[1..][j - 1];
    }
  }

  /** The command entity the constructor uses, if any. */
  function CommandEntity(entities: Option<seq<Entity>>): (r: Option<Entity>)
    ensures r.Some? <==> entities.Some? && FirstCommand(entities.value).Some?
    ensures r.Some? ==> r.value == entities.value[FirstCommand(entities.value).value]
  {
    if entities.None? then None
    else match FirstCommand(entities.value)
      case None => None
      case Some(k) => Some(entities.value[k])
  }

  /**
   * The inputs the model accepts for the command derivation: when a command
   * entity is found, the text is a string (a `None` text would raise
   * `TypeError`) and the entity has `offset` and `length` (a missing one
   * would raise `KeyError`), both integers as the platform sends them.
   */
  predicate DerivationDefined(text: Option<string>, entities: Option<seq<Entity>>) {
    var e := CommandEntity(entities);
    e.Some? ==> text.Some? && HasInt(e.value, "offset") && HasInt(e.value, "length")
  }

  /**
   * The command word cut from text `t` for a command entity at offset `o`
   * with length `l`: the span after the slash, `t[o + 1 : o + l]`, with every
   * occurrence of the bot name deleted.
   */
  function CommandWord(t: string, o: int, l: int, botname: string): (c: string)
    ensures |c| <= |t|
  {
    RemoveAll(Slice(t, o + 1, o + l), botname)
  }

  /** The text left after the command entity, `t[o + l :].strip()`. */
  function CommandRest(t: string, o: int, l: int): (r: string)
    ensures |r| <= |t|
  {
    Strip(SliceFrom(t, o + l))
  }

  /** `Message.__init__`: stores the fields and derives `is_command`, `command` and `text`. */
  function NewMessage(id: int, date: int, chat: Chat, sender: Option<User>, text: Option<string>,
                      entities: Option<seq<Entity>>, botname: string): (m: Message)
    requires DerivationDefined(text, entities)
    ensures m.id == id && m.date == date && m.chat == chat && m.sender == sender && m.entities == entities
    ensures m.isCommand <==> CommandEntity(entities).Some?
    ensures !m.isCommand ==> m.command == "" && m.text == text
    ensures m.isCommand ==>
      var e := CommandEntity(entities).value;
      && m.command == CommandWord(text.value, e["offset"].i, e["length"].i, botname)
      && m.text == Some(CommandRest(text.value, e["offset"].i, e["length"].i))
  {
    match CommandEntity(entities)
    case None => Message(id, date, chat, sender, entities, text, false, "")
    case Some(e) =>
      var o, l := e["offset"].i, e["length"].i;
      Message(id, date, chat, sender, entities, Some(CommandRest(text.value, o, l)), true,
              CommandWord(text.value, o, l, botname))
  }

  /** A message is a command exactly when some entity carries the `bot_command` marker. */
  lemma IsCommandIff(id: int, date: int, chat: Chat, sender: Option<User>, text: Option<string>,
                     entities: Option<seq<Entity>>, botname: string)
    requires DerivationDefined(text, entities)
    ensures NewMessage(id, date, chat, sender, text, entities, botname).isCommand
            <==> entities.Some? && exists j :: 0 <= j < |entities.value| && IsCommandEntity(entities.value[j])
  {
    if entities.Some? {
      FirstCommandIsFirst(entities.value);
    }
  }

  /** Without entities, or with no command entity among them, the message keeps its text and has no command. */
  lemma NoCommandKeepsText(id: int, date: int, chat: Chat, sender: Option<User>, text: Option<string>,
                           entities: Option<seq<Entity>>, botname: string)
    requires entities.None? || forall j :: 0 <= j < |entities.value| ==> !IsCommandEntity(entities.value[j])
    ensures DerivationDefined(text, entities)
    ensures var m := NewMessage(id, date, chat, sender, text, entities, botname);
            !m.isCommand && m.command == "" && m.text == text
  {
    if entities.Some? {
      FirstCommandIsFirst(entities.value);
    }
  }

  /** Entities after the first command entity, command or not, change nothing. */
  lemma {:induction false} FirstCommandWins(es: seq<Entity>, more: seq<Entity>)
    requires FirstCommand(es).Some?
    ensures FirstCommand(es + more) == FirstCommand(es)
  {
    if !IsCommandEntity(es[0]) {
      assert (es + more)[1..] == es[1..] + more;
      FirstCommandWins(es[1..], more);
    }
  }

  /** Hence a message built with extra trailing entities derives the same command and text. */
  lemma LaterCommandEntitiesIgnored(id: int, date: int, chat: Chat, sender: Option<User>, text: Option<string>,
                                    es: seq<Entity>, more: seq<Entity>, botname: string)
    requires FirstCommand(es).Some?
    requires DerivationDefined(text, Some(es))
    ensures DerivationDefined(text, Some(es + more))
    ensures var m1, m2 := NewMessage(id, date, chat, sender, text, Some(es), botname),
                          NewMessage(id, date, chat, sender, text, Some(es + more), botname);
            m1.isCommand && m2.isCommand && m1.command == m2.command && m1.text == m2.text
  {
    FirstCommandWins(es, more);
    var k := FirstCommand(es).value;
    assert (es + more)[k] == es[k];
  }

  /** With the default bot name '' the command word is exactly the slice after the slash. */
  lemma DefaultBotnameKeepsSlice(t: string, o: int, l: int)
    ensures CommandWord(t, o, l, "") == Slice(t, o + 1, o + l)
  {
  }

  /** An entity lying inside the text: the bot name is deleted from `t[o + 1..o + l]` and the rest is `t[o + l..]` stripped. */
  lemma CommandInsideText(t: string, o: int, l: int, botname: string)
    requires 0 <= o && 1 <= l && o + l <= |t|
    ensures CommandWord(t, o, l, botname) == RemoveAll(t[o + 1..o + l], botname)
    ensures CommandRest(t, o, l) == Strip(t[o + l..])
  {
  }

  /**
   * For an entity inside the text and the default bot name, nothing is lost:
   * the text is everything up to the slash, the command word, and the part
   * whose stripped form becomes the new text.
   */
  lemma CommandSplitsText(t: string, o: int, l: int)
    requires 0 <= o && 1 <= l && o + l <= |t|
    ensures t == t[..o + 1] + CommandWord(t, o, l, "") + t[o + l..]
  {
    var w := CommandWord(t, o, l, "");
    assert w == Slice(t, o + 1, o + l);
    assert w == t[o + 1..o + l];
    SplitAt(t, o + 1, o + l);
  }

  /** An entity that starts past the end of the text clamps to empty pieces instead of failing. */
  lemma CommandBeyondText(t: string, o: int, l: int, botname: string)
    requires o >= |t| && l >= 0
    ensures CommandWord(t, o, l, botname) == ""
    ensures CommandRest(t, o, l) == ""
  {
    assert Strip([]) == [];
  }

  /**
   * An entity that starts inside the text but runs past its end: Python
   * clamps the slice, so the command word is everything after the slash and
   * nothing is left for the text.
   */
  lemma CommandPastEnd(t: string, o: int, l: int, botname: string)
    requires 0 <= o < |t| < o + l
    ensures CommandWord(t, o, l, botname) == RemoveAll(t[o + 1..], botname)
    ensures CommandRest(t, o, l) == ""
  {
    assert Strip([]) == [];
  }

  /** `/echo` with an entity of length 10 gives the command `echo` and an empty text. */
  lemma ShortTextLongEntity()
    ensures CommandWord("/echo", 0, 10, "") == "echo"
    ensures CommandRest("/echo", 0, 10) == ""
  {
    CommandPastEnd("/echo", 0, 10, "");
    assert "/echo"[1..] == "echo";
  }

  /** The usual layout: the text opens with `/`, the command word `w`, then the rest `r`. */
  lemma CommandAtStart(w: string, r: string, botname: string)
    ensures CommandWord("/" + w + r, 0, |w| + 1, botname) == RemoveAll(w, botname)
    ensures CommandRest("/" + w + r, 0, |w| + 1) == Strip(r)
  {
    var t := "/" + w + r;
    assert t[1..] == w + r;
    assert t[1..|w| + 1] == w;
    assert t[|w| + 1..] == r;
  }

  /**
   * The same through the constructor, for a message whose only entity is a
   * command entity spanning the slash and the word `w`: with text
   * `/echo@mybot hello world` and bot name `mybot` the command is
   * `RemoveAll("echo@mybot", "mybot")`, which is `echo@`.
   */
  lemma CommandMessageAtStart(id: int, date: int, chat: Chat, e: Entity, w: string, r: string, botname: string)
    requires IsCommandEntity(e)
    requires "offset" in e && e["offset"] == JInt(0)
    requires "length" in e && e["length"] == JInt(|w| + 1)
    ensures var m := NewMessage(id, date, chat, None, Some("/" + w + r), Some([e]), botname);
            m.isCommand && m.command == RemoveAll(w, botname) && m.text == Some(Strip(r))
  {
    assert CommandEntity(Some([e])) == Some(e);
    CommandAtStart(w, r, botname);
  }

  /** Every instance of a `TelegramObject` subclass the library builds. */
  datatype TelegramObject =
    | UserObject(user: User)
    | ChatObject(chat: Chat)
    | MessageObject(message: Message)

  /** The concrete Python class of an object; none of them subclasses another. */
  datatype Class = UserClass | PrivateChatClass | GroupChatClass | SupergroupChatClass | MessageClass

  function ClassOf(o: TelegramObject): Class {
    match o
    case UserObject(_) => UserClass
    case ChatObject(c) =>
      (match c
       case PrivateChat(_, _, _, _) => PrivateChatClass
       case GroupChat(_, _) => GroupChatClass
       case SupergroupChat(_, _) => SupergroupChatClass)
    case MessageObject(_) => MessageClass
  }

  /** The `id` attribute set by `TelegramObject.__init__` (the message id for a message). */
  function IdOf(o: TelegramObject): int {
    match o
    case UserObject(u) => u.id
    case ChatObject(c) => c.id
    case MessageObject(m) => m.id
  }

  /** `a == b`: `isinstance(b, a.__class__)` and the ids agree. */
  predicate ObjectsEqual(a: TelegramObject, b: TelegramObject): (r: bool)
    ensures a == b ==> r
    ensures r ==> IdOf(a) == IdOf(b)
    ensures r ==> a.UserObject? == b.UserObject? && a.MessageObject? == b.MessageObject?
  {
    ClassOf(a) == ClassOf(b) && IdOf(a) == IdOf(b)
  }

  /** The modulus CPython reduces integers by when hashing them (64-bit builds). */
  const HashModulus: int := 0x1FFF_FFFF_FFFF_FFFF

  /** `hash(n)` for a Python `int`: the residue modulo 2^61 - 1 carrying the sign of `n`, with -1 reserved. */
  function IntHash(n: int): (h: int)
    ensures -HashModulus < h < HashModulus
    ensures h != -1
    ensures 0 <= n < HashModulus ==> h == n
    ensures n >= 0 ==> h >= 0
  {
    var r := if n >= 0 then n % HashModulus else -((-n) % HashModulus);
    if r == -1 then -2 else r
  }

  /** `TelegramObject.__hash__`. */
  function ObjectHash(o: TelegramObject): (h: int)
    ensures h != -1
    ensures -HashModulus < h < HashModulus
    ensures 0 <= IdOf(o) < HashModulus ==> h == IdOf(o)
  {
    IntHash(IdOf(o))
  }

  /** Object equality is an equivalence relation. */
  lemma ObjectsEqualIsEquivalence(a: TelegramObject, b: TelegramObject, c: TelegramObject)
    ensures ObjectsEqual(a, a)
    ensures ObjectsEqual(a, b) <==> ObjectsEqual(b, a)
    ensures ObjectsEqual(a, b) && ObjectsEqual(b, c) ==> ObjectsEqual(a, c)
  {
  }

  /** Equal objects hash alike, and the hash sees nothing but the id. */
  lemma HashConsistentWithEquality(a: TelegramObject, b: TelegramObject)
    ensures ObjectsEqual(a, b) ==> ObjectHash(a) == ObjectHash(b)
    ensures IdOf(a) == IdOf(b) ==> ObjectHash(a) == ObjectHash(b)
  {
  }

  /** Two users are equal exactly when their ids agree; names, usernames and the bot flag are ignored. */
  lemma UsersEqualById(u1: User, u2: User)
    ensures ObjectsEqual(UserObject(u1), UserObject(u2)) <==> u1.id == u2.id
  {
  }

  /** Two messages are equal exactly when their message ids agree; chat, text and everything else are ignored. */
  lemma MessagesEqualById(m1: Message, m2: Message)
    ensures ObjectsEqual(MessageObject(m1), MessageObject(m2)) <==> m1.id == m2.id
  {
  }

  /** Two chats are equal exactly when they are the same kind of chat with the same id; titles and names are ignored. */
  lemma ChatEqualityByKindAndId(c1: Chat, c2: Chat)
    ensures ObjectsEqual(ChatObject(c1), ChatObject(c2)) <==> c1.Type() == c2.Type() && c1.id == c2.id
  {
  }

  /** A group and a private chat that share an id are not equal, but still hash alike. */
  lemma GroupAndPrivateWithSameIdDiffer(id: int, title: Option<string>, un: Option<string>,
                                        fn: Option<string>, ln: Option<string>)
    ensures !ObjectsEqual(ChatObject(GroupChat(id, title)), ChatObject(PrivateChat(id, un, fn, ln)))
    ensures ObjectHash(ChatObject(GroupChat(id, title))) == ObjectHash(ChatObject(PrivateChat(id, un, fn, ln)))
  {
  }
}

=== FILE: telegram_error.dfy ===
/** The library's two exception classes. */
module TelegramError {
  import opened Json

  datatype TelegramError =
    /** Raised at start-up when the token is rejected; carries the token. */
    | InvalidToken(token: string)
    /** Raised by the parser for a record it cannot classify; carries that record unchanged. */
    | ParseException(toParse: Json)
}

=== FILE: telegram_parser.dfy ===
/**
 * Turns the raw records of the platform's responses into domain objects.
 * The parser reads required keys with `raw[key]`, which raises `KeyError`
 * for a missing key, so required keys are preconditions here. It stores
 * values without checking their types; the records accepted here hold the
 * types the constructors declare. Optional keys are read with
 * `raw[key] if key in raw else None`. The one error the parser raises on
 * purpose is `ParseException` for an unknown chat type.
 */
module TelegramParser {
  import opened Wrappers
  import opened Json
  import opened Telegram
  import opened TelegramError

  /** The keys `parse_user` reads hold values of the types `User.__init__` declares. */
  predicate UserRecordOk(raw: Record) {
    && HasInt(raw, "id") && HasBool(raw, "is_bot") && HasStr(raw, "first_name")
    && OptStrOk(raw, "last_name") && OptStrOk(raw, "username")
  }

  /** `parse_user`. */
  function ParseUser(raw: Record): (u: User)
    requires UserRecordOk(raw)
    ensures u.id == raw["id"].i && u.isBot == raw["is_bot"].b && u.firstName == raw["first_name"].s
    ensures u.lastName.None? <==> "last_name" !in raw || raw["last_name"] == JNull
    ensures u.lastName.Some? ==> raw["last_name"] == JStr(u.lastName.value)
    ensures u.username.None? <==> "username" !in raw || raw["username"] == JNull
    ensures u.username.Some? ==> raw["username"] == JStr(u.username.value)
  {
    User(raw["id"].i, raw["is_bot"].b, raw["first_name"].s, OptStr(raw, "last_name"), OptStr(raw, "username"))
  }

  /** The three `type` values `parse_chat` recognises. */
  predicate KnownChatType(t: Json) {
    t == JStr("private") || t == JStr("group") || t == JStr("supergroup")
  }

  /**
   * `parse_chat` reads `id` and `type` first and then, for a known type, the
   * optional fields of that variant.
   */
  predicate ChatRecordOk(raw: Record) {
    && HasInt(raw, "id") && "type" in raw
    && (raw["type"] == JStr("private") ==>
          OptStrOk(raw, "username") && OptStrOk(raw, "first_name") && OptStrOk(raw, "last_name"))
    && (raw["type"] == JStr("group") || raw["type"] == JStr("supergroup") ==> OptStrOk(raw, "title"))
  }

  /** `parse_chat`: a three-way classification on `type`, failing with the record itself otherwise. */
  function ParseChat(raw: Record): (r: Result<Chat, TelegramError>)
    requires ChatRecordOk(raw)
    ensures r.Success? <==> KnownChatType(raw["type"])
    ensures r.Failure? ==> r.error == ParseException(JObj(raw))
    ensures r.Success? ==> r.value.id == raw["id"].i && raw["type"] == JStr(r.value.Type())
    ensures r.Success? && r.value.PrivateChat? ==>
      && r.value.username == OptStr(raw, "username")
      && r.value.firstName == OptStr(raw, "first_name")
      && r.value.lastName == OptStr(raw, "last_name")
    ensures r.Success? && !r.value.PrivateChat? ==> r.value.title == OptStr(raw, "title")
  {
    var id := raw["id"].i;
    var chatType := raw["type"];
    if chatType == JStr("private") then
      Success(PrivateChat(id, OptStr(raw, "username"), OptStr(raw, "first_name"), OptStr(raw, "last_name")))
    else if chatType == JStr("group") then
      Success(GroupChat(id, OptStr(raw, "title")))
    else if chatType == JStr("supergroup") then
      Success(SupergroupChat(id, OptStr(raw, "title")))
    else
      Failure(ParseException(JObj(raw)))
  }

  /** `raw['entities'] if 'entities' in raw else None` for a list of entity objects. */
  predicate EntitiesOk(raw: Record) {
    "entities" !in raw || raw["entities"].JNull?
    || (raw["entities"].JArr? && forall i :: 0 <= i < |raw["entities"].items| ==> raw["entities"].items[i].JObj?)
  }

  function Entities(raw: Record): (r: Option<seq<Entity>>)
    requires EntitiesOk(raw)
    ensures r.None? <==> "entities" !in raw || raw["entities"] == JNull
    ensures r.Some? ==> |r.value| == |raw["entities"].items|
    ensures r.Some? ==> forall i :: 0 <= i < |r.value| ==> raw["entities"].items[i] == JObj(r.value[i])
  {
    if "entities" in raw && raw["entities"].JArr? then
      var items := raw["entities"].items;
      Some(seq(|items|, i requires 0 <= i < |items| => items[i].fields))
    else None
  }

  /**
   * The message records the model accepts: the required keys, a chat record,
   * and, once the chat has parsed, a sender, text and entity list of the
   * declared types for which the constructor's command derivation is
   * defined.
   */
  predicate MessageRecordOk(raw: Record) {
    && HasInt(raw, "message_id") && HasInt(raw, "date")
    && "chat" in raw && raw["chat"].JObj? && ChatRecordOk(raw["chat"].fields)
    && (KnownChatType(raw["chat"].fields["type"]) ==>
          && ("from" in raw ==> raw["from"].JObj? && UserRecordOk(raw["from"].fields))
          && OptStrOk(raw, "text")
          && EntitiesOk(raw)
          && DerivationDefined(OptStr(raw, "text"), Entities(raw)))
  }

  /** `parse_message`: the chat is parsed first, and its failure is the message's failure. */
  function ParseMessage(raw: Record, botname: string): (r: Result<Message, TelegramError>)
    requires MessageRecordOk(raw)
    ensures r.Failure? <==> !KnownChatType(raw["chat"].fields["type"])
    ensures r.Failure? ==> r.error == ParseException(raw["chat"])
    ensures r.Success? ==>
      && r.value.id == raw["message_id"].i
      && r.value.date == raw["date"].i
      && Success(r.value.chat) == ParseChat(raw["chat"].fields)
      && (r.value.sender.Some? <==> "from" in raw)
      && (r.value.sender.Some? ==> r.value.sender.value == ParseUser(raw["from"].fields))
      && r.value.entities == Entities(raw)
      && r.value == NewMessage(r.value.id, r.value.date, r.value.chat, r.value.sender,
                               OptStr(raw, "text"), Entities(raw), botname)
  {
    var msgId := raw["message_id"].i;
    var date := raw["date"].i;
    match ParseChat(raw["chat"].fields)
    case Failure(err) => Failure(err)
    case Success(chat) =>
      var sender := if "from" in raw then Some(ParseUser(raw["from"].fields)) else None;
      Success(NewMessage(msgId, date, chat, sender, OptStr(raw, "text"), Entities(raw), botname))
  }

  /** Adds an optional string field to a record, leaving the key out for `None`. */
  function PutOptStr(raw: Record, key: string, v: Option<string>): Record {
    if v.Some? then raw[key := JStr(v.value)] else raw
  }

  /** The record the platform sends for a chat (the inverse direction, used to state round trips). */
  function ChatRecord(c: Chat): Record {
    match c
    case PrivateChat(id, un, fn, ln) =>
      PutOptStr(PutOptStr(PutOptStr(map["id" := JInt(id), "type" := JStr("private")], "username", un),
                          "first_name", fn), "last_name", ln)
    case GroupChat(id, tt) => PutOptStr(map["id" := JInt(id), "type" := JStr("group")], "title", tt)
    case SupergroupChat(id, tt) => PutOptStr(map["id" := JInt(id), "type" := JStr("supergroup")], "title", tt)
  }

  /** The record the platform sends for a user. */
  function UserRecord(u: User): Record {
    PutOptStr(PutOptStr(map["id" := JInt(u.id), "is_bot" := JBool(u.isBot), "first_name" := JStr(u.firstName)],
                        "last_name", u.lastName), "username", u.username)
  }

  /** Every chat survives being written as a record and parsed back: variant, id and optional fields. */
  lemma ChatRoundTrip(c: Chat)
    ensures ChatRecordOk(ChatRecord(c))
    ensures ParseChat(ChatRecord(c)) == Success(c)
  {
  }

  /** Every user survives being written as a record and parsed back. */
  lemma UserRoundTrip(u: User)
    ensures UserRecordOk(UserRecord(u))
    ensures ParseUser(UserRecord(u)) == u
  {
  }

  /** A parsed message's `chat_id` is the id in its raw chat record. */
  lemma ParseMessageChatId(raw: Record, botname: string)
    requires MessageRecordOk(raw)
    requires ParseMessage(raw, botname).Success?
    ensures ParseMessage(raw, botname).value.ChatId() == raw["chat"].fields["id"].i
  {
  }

  /** An ordinary message keeps its text, which is `None` exactly when the key is absent or null. */
  lemma ParseMessageText(raw: Record, botname: string)
    requires MessageRecordOk(raw)
    requires ParseMessage(raw, botname).Success?
    requires !ParseMessage(raw, botname).value.isCommand
    ensures var m := ParseMessage(raw, botname).value;
            && (m.text.None? <==> "text" !in raw || raw["text"] == JNull)
            && (m.text.Some? ==> raw["text"] == JStr(m.text.value))
            && m.command == ""
  {
  }
}

=== FILE: wrappers.dfy ===
/** Option and Result, used for Python's `None` and for raised exceptions. */
module Wrappers {

  /** A value that may be absent; `None` stands for Python's `None`. */
  datatype Option<+T> = None | Some(value: T)

  /** The outcome of an operation that can raise: `Failure` carries the exception. */
  datatype Result<+R, +E> = Success(value: R) | Failure(error: E)
}
